=== FILE: README.md ===
# Student performance tracker: account and record rules in Dafny

This project models the non-graphical core of a PyQt6 desktop tool for recording
per-student metrics (study hours, sleep, screen time, attendance, stress, exercise,
previous score, final score) and proves properties of that model. The tool keeps a
global, insertion-ordered dictionary of accounts (`username -> {password, email,
students}`) persisted to `accounts.json`. A hard-coded author identity may view every
account's records combined but never save them. The main window shows the visible
records in a nine-column table, adds rows, moves down with Enter, filters rows by name,
saves the table back into the owner's account, and draws a bar chart of each record's
total score with the best three green and the worst three red.

Modules, one per component:

- `Base` (base.dfy): `Option` and `Row`, a stored record, shared by the other modules.
- `OrderedDict` (ordered_dict.dfy): Python's insertion-ordered `dict` as a key sequence
  plus a map, with `Put` as `d[k] = v`.
- `Accounts` (accounts.dfy): the account record and the session. `Login` is a function
  over the dictionary. `AccountStore` is a class for the global table and the last
  document written. It has the fail-soft startup load, `Signup` and `SetStudents`.
  `Visible` gives the records a session sees.
- `Scoring` (scoring.dfy): `TotalScore` and its digit parsing.
- `Ranking` (ranking.dfy): Python's stable `sorted` over indices (an insertion sort
  under a strict total order: total first, then index), the first three of each
  direction, the colour tags, and `ChartData`, the data behind the bar chart.
- `NameSearch` (name_search.dfy): lower-casing, Python's substring test `in`, and when a
  row is hidden.
- `QtTable` (qt_table.dfy): a class for the table widget's state (cells, hidden flags,
  current cell) and the widget operations the window calls, including the sort that
  switching sorting on performs.
- `StudentApp` (app.dfy): a class for the main window, with its loops for loading,
  reading back and searching the table, and its save, add-row and key handling.

Things the code does that a reader might not expect, all modelled as written:

- The chart is drawn from the list bound when the window loaded (line 193). Saving
  rebinds only the account's list (line 211), so the chart keeps showing the data loaded
  at login, even after a save. `StudentApp.App.SaveStudents` states `students ==
  old(students)`.
- `setItem` with a column past the last does not fail. Qt stores the item at flat
  position `row * 9 + column`, so a record of more than nine fields spills its extra
  fields into the next row. The next record then overwrites them with its own fields,
  and what it leaves empty keeps the spilled text (`StudentApp.SpillExample`). The
  last record's extra fields fall outside the table and are dropped.
- A record read back from the table has nine fields, one per column, including "Final
  Score". That cell counts towards the total when it holds digits
  (`Scoring.NineColumnTotal`).
- Top is tested first, so it wins over Bottom. A record among both the best three and the
  worst three is tagged Top.
- With distinct totals and six or more records, no record is among both the best three
  and the worst three (`Ranking.TopBottomDisjoint`). With tied totals the two groups can
  overlap even with six or more records, because both stable sorts keep tied records in
  list order. When every total is equal, the first three records are both the best and
  the worst three, and no bar is red (`Ranking.AllTied`).
- Switching sorting on (line 134) sorts the freshly loaded rows at once. The table
  therefore shows the records in Qt's sort order, not load order, and a save right after
  login writes them back in that order (`StudentApp.SaveAfterOpen`).
- The author check comes before the dictionary lookup. The author pair logs in as
  author even when an account named `prosun07a` exists with another password.
- Keys other than Return and Enter go to the window's base key handler, not the
  table's. The table's state does not change for them.

## Model

| member | source | states |
|---|---|---|
| `OrderedDict.Put` | student_performance_pyqt6.py:94 | `d[k] = v`: `k` maps to `v` and every other key keeps its value. A new key is appended to the order, and an existing key keeps its place. Validity (each key listed once, exactly the map's keys) is preserved. |
| `Accounts.Login` | student_performance_pyqt6.py:65-79 | The author pair always gives an author session, whatever the dictionary holds. Any other pair gives a session exactly when the username is a key and the stored password equals the input. A plain session's user owns an account. Login is a function and cannot change the dictionary. |
| `OrderedDict.Empty` | student_performance_pyqt6.py:16 | Definition of `{}`: no keys. Its ensures state that it is a valid dictionary. `Accounts.AccountStore.Load` uses it for a failed load. |
| `Accounts.EmailVerified` | student_performance_pyqt6.py:29 | Definition of `ok and entered == code`. `Accounts.AccountStore.Signup` states how it decides the outcome. |
| `Accounts.Concat` | student_performance_pyqt6.py:193 | Definition of `sum([accounts[u]["students"] for u in keys], [])`, folded from the left as `sum` does. Properties: `Accounts.ConcatLength`, `Accounts.ConcatBlock`. |
| `Accounts.Visible` | student_performance_pyqt6.py:193 | Definition of the list a session sees: its own account's list, or the joined list of every account for the author. Properties: `Accounts.AuthorView`, `Accounts.AccountStore.SetStudents`. |
| `Accounts.ConcatLength` | student_performance_pyqt6.py:193 | The joined list `sum([...], [])` has as many records as the accounts hold together. |
| `Accounts.ConcatBlock` | student_performance_pyqt6.py:193 | Record `r` of the `i`-th account sits at position (records of accounts `0..i-1`) + `r` of the joined list. So each account's list appears unchanged, as one block, in dictionary order. |
| `Accounts.AuthorView` | student_performance_pyqt6.py:193 | The author's visible list has as many records as all accounts together, and each account's block is in dictionary order. |
| `Accounts.AccountStore.Load` | student_performance_pyqt6.py:12-18 | A load failure gives an empty table, and that empty table is what is written back. A readable document is taken as it is. |
| `Accounts.AccountStore.SaveAccounts` | student_performance_pyqt6.py:20-22 | The persisted document becomes the in-memory table. |
| `Accounts.AccountStore.Signup` | student_performance_pyqt6.py:81-95 | The checks run in order: an empty field gives MissingField, an existing username gives DuplicateUsername, failed verification (`ok && entered == code` false, lines 24-29) gives EmailVerificationFailed. Success happens exactly when all three pass. Then exactly one new key is appended, mapped to `{password, email, []}`, every other entry is unchanged, and the document is saved. On every rejection the table and the document are unchanged. |
| `Accounts.AccountStore.SetStudents` | student_performance_pyqt6.py:211-212 | Only the named account's `students` is replaced. Key order, the key set, its password and email, and every other account are unchanged. The owner's visible list afterwards is exactly the new list, and the document is saved. |
| `Scoring.Decimal` | student_performance_pyqt6.py:231 | Definition of `str(n)` for a natural number: its decimal digits, most significant first. Its ensures state that the result passes the digit test, and `Scoring.DecimalRoundTrip` states that it reads back. |
| `Scoring.DecimalRoundTrip` | student_performance_pyqt6.py:231 | `int(str(n)) == n` for numbers of at most 4300 digits (the model has no digit limit): the decimal spelling of the number passes the digit test and reads back as that number. |
| `Scoring.LeadingZero` | student_performance_pyqt6.py:231 | A leading `0` does not change the value read. |
| `Scoring.SumFieldsAppend` | student_performance_pyqt6.py:231 | The sum over fields splits over concatenation. |
| `Scoring.SumFieldsUpdate` | student_performance_pyqt6.py:231 | Replacing one field swaps its contribution for the new field's. |
| `Scoring.IsDigitString` | student_performance_pyqt6.py:231 | Definition of `str(v).isdigit()`: non-empty, and every character a digit (ASCII only). Its properties are stated by `Scoring.DecimalRoundTrip` and `Scoring.TotalScoreExample`. |
| `Scoring.DecimalValue` | student_performance_pyqt6.py:231 | Definition of `int(v)` on a digit string, read from the left. Properties: `Scoring.DecimalRoundTrip`, `Scoring.LeadingZero`. |
| `Scoring.SumFields` | student_performance_pyqt6.py:231 | Definition of the `sum` over a list of fields, each contributing its `FieldValue`. Properties: `Scoring.SumFieldsAppend`, `Scoring.SumFieldsUpdate`, `Scoring.TotalScoreSplit`. |
| `Scoring.FieldValue` | student_performance_pyqt6.py:231 | Definition of a field's contribution: its value when it passes the digit test, else 0. Properties: `Scoring.DecimalRoundTrip`, `Scoring.TotalScoreEdit`. |
| `Scoring.TotalScore` | student_performance_pyqt6.py:231 | Definition of `sum([int(v) for v in s[1:] if str(v).isdigit()])`. Properties: `Scoring.TotalScoreEdit`, `Scoring.TotalScoreSplit`, `Scoring.NineColumnTotal`, `Scoring.TotalScoreExample`. |
| `Scoring.TotalScoreEdit` | student_performance_pyqt6.py:231 | The name field never affects the total. Editing any other field changes the total by exactly the difference of the two contributions. Text that is not all ASCII digits (`""`, `"-3"`, `"abc"`) contributes 0. |
| `Scoring.TotalScoreSplit` | student_performance_pyqt6.py:231 | The total is the sum over the fields after the name, however they are split. |
| `Scoring.NineColumnTotal` | student_performance_pyqt6.py:231 | For a nine-cell saved row, the "Final Score" cell counts when it holds digits. |
| `Scoring.TotalScoreExample` | student_performance_pyqt6.py:231 | `["X","10","abc","5","","0","-3","7"]` totals 22. |
| `Ranking.Precedes` | student_performance_pyqt6.py:234-235 | Definition of the order `sorted(range(n), key=lambda x: values[x], reverse=...)` produces: a larger (descending) or smaller (ascending) total first, and equal totals in index order, as Python's stable sort keeps them, also with `reverse=True`. Properties: `Ranking.SortedIndices`, `Ranking.OrderedUnique`, `Ranking.PlaceIsRank`. |
| `Ranking.Insert` | student_performance_pyqt6.py:234-236 | Inserting an index into an ordered list of indices keeps it ordered and adds exactly that index. |
| `Ranking.SortFirst` | student_performance_pyqt6.py:234-236 | Sorting the indices `0..n-1` gives an ordered list that holds each of them once. |
| `Ranking.SortedIndices` | student_performance_pyqt6.py:234-236 | `sorted(range(n), key=values, reverse=desc)` holds every index once, ordered by value (descending or ascending), with ties in list order. This is Python's stable sort. |
| `Ranking.OrderedUnique` | student_performance_pyqt6.py:234-236 | Two ordered lists of the same indices are equal. So any stable sort yields `SortedIndices`. |
| `Ranking.SortedIndicesAre` | student_performance_pyqt6.py:234-236 | Any ordered listing of all the indices is the sorted result. |
| `Ranking.PlaceIsRank` | student_performance_pyqt6.py:234-236 | The index at place `p` of the sorted order has exactly `p` indices ranked before it. |
| `Ranking.FirstThreeByRank` | student_performance_pyqt6.py:234-236 | An index is in `sorted(...)[:3]` exactly when fewer than three indices rank before it. |
| `Ranking.TagsByRank` | student_performance_pyqt6.py:234-236 | There is one tag per record. A record is Top exactly when fewer than three records beat it in the descending order (larger total, or equal and earlier). Otherwise it is Bottom exactly when fewer than three beat it in the ascending order. Otherwise it is Middle. |
| `Ranking.OthersSplit` | student_performance_pyqt6.py:234-236 | With distinct totals, the records ranked before a record in the two directions are disjoint and together make up all other records. |
| `Ranking.RanksAddUp` | student_performance_pyqt6.py:234-236 | With distinct totals, a record's descending rank plus its ascending rank is `n - 1`. |
| `Ranking.TopBottomDisjoint` | student_performance_pyqt6.py:234-236 | With six or more records and distinct totals, no record is both in the top three and in the bottom three. |
| `Ranking.AllTied` | student_performance_pyqt6.py:234-236 | With all totals equal, the top three and bottom three are both records 0, 1, 2. They are tagged Top, and no record is tagged Bottom. |
| `Ranking.FirstThree` | student_performance_pyqt6.py:234-236 | Definition of `sorted(...)[:3]`. Property: `Ranking.FirstThreeByRank`. |
| `Ranking.Tags` | student_performance_pyqt6.py:234-236 | Definition of the colour comprehension: Top if in the descending first three, else Bottom if in the ascending first three, else Middle. Properties: `Ranking.TagsByRank`, `Ranking.TopBottomDisjoint`, `Ranking.AllTied`, `Ranking.SevenRecordExample`. |
| `Ranking.Totals` | student_performance_pyqt6.py:229-232 | Definition of the totals list, one `TotalScore` per record. `Ranking.ChartData` states that its loop builds it. |
| `Ranking.SevenRecordExample` | student_performance_pyqt6.py:234-236 | Totals 30, 10, 50, 20, 5, 40, 15 are tagged Top, Bottom, Top, Middle, Bottom, Top, Bottom. |
| `Ranking.SevenRecordDescending` | student_performance_pyqt6.py:234 | For those totals, `sorted(range(7), key=..., reverse=True)` is `[2, 5, 0, 3, 6, 1, 4]`. |
| `Ranking.SevenRecordAscending` | student_performance_pyqt6.py:235 | For those totals, `sorted(range(7), key=...)` is `[4, 1, 6, 3, 0, 5, 2]`. |
| `Ranking.ChartData` | student_performance_pyqt6.py:225-236 | An empty list gives no bars. An empty record gives the failure of `s[0]`. Otherwise there is one bar per record, in order, with the record's name, its `TotalScore` and its tag from the totals. |
| `NameSearch.Lower` | student_performance_pyqt6.py:187 | Definition of `str.lower()` for ASCII letters. Property: `NameSearch.LongerQueryHidesMore` (lower-casing distributes over appending a character). |
| `NameSearch.Contains` | student_performance_pyqt6.py:190 | Definition of Python's `sub in s` on strings. Property: `NameSearch.ContainsIffOccurs`. |
| `NameSearch.RowHidden` | student_performance_pyqt6.py:190 | Definition of the flag passed to `setRowHidden`: hidden when there is no name item, else when the lower-cased query is not in the lower-cased name. Properties: `NameSearch.EmptyQueryShowsNamedRows`, `NameSearch.PieceOfNameShowsRow`, `NameSearch.ShownRowHasQuery`, `NameSearch.LongerQueryHidesMore`, `StudentApp.App.SearchStudent`. |
| `NameSearch.ContainsIffOccurs` | student_performance_pyqt6.py:190 | Python's `sub in s` holds exactly when `sub` occurs at some position of `s`. |
| `NameSearch.EmptyQueryShowsNamedRows` | student_performance_pyqt6.py:186-190 | With an empty query, a row is hidden exactly when it has no name cell. |
| `NameSearch.PieceOfNameShowsRow` | student_performance_pyqt6.py:190 | If the lower-cased query occurs in the lower-cased name, the row is shown. |
| `NameSearch.ShownRowHasQuery` | student_performance_pyqt6.py:190 | A shown row has a name cell, and the lower-cased query occurs in its lower-cased name. |
| `NameSearch.LongerQueryHidesMore` | student_performance_pyqt6.py:186-190 | Typing one more character never shows a row that was hidden. |
| `QtTable.Permute` | student_performance_pyqt6.py:134 | Definition of a rearrangement of rows: place `p` holds old row `order[p]`. Property: `QtTable.PermuteMultiset`. |
| `QtTable.PermuteSameMultiset` | student_performance_pyqt6.py:134 | Two listings of the same positions, in any order, pick out the same rows with the same multiplicities. |
| `QtTable.PermuteMultiset` | student_performance_pyqt6.py:134 | Rearranging rows by a permutation keeps every row, as often as it occurred. |
| `QtTable.EmptyRow` | student_performance_pyqt6.py:180 | Definition of a freshly inserted Qt row: no item in any column. Its ensures give the width and the empty cells. `QtTable.Table.InsertRow` and `QtTable.Table.SetRowCount` use it. |
| `QtTable.Table.RowCount` | student_performance_pyqt6.py:179-181 | Definition of `rowCount()`: the number of rows. `StudentApp.App.HandleKey`, `StudentApp.App.AddStudent`, `StudentApp.App.SearchStudent` and `StudentApp.App.TableData` state their results in terms of it. |
| `QtTable.Table.constructor` | student_performance_pyqt6.py:129-130 | A new table has nine columns, no rows and no current cell. |
| `QtTable.Table.Item` | student_performance_pyqt6.py:189 | `item(i, j)` is the cell's item, or none outside the table. |
| `QtTable.Table.SetRowCount` | student_performance_pyqt6.py:194 | Growing the table appends empty, visible rows, and the cursor stays. |
| `QtTable.Table.InsertRow` | student_performance_pyqt6.py:180 | An empty, visible row is inserted at the position, and the rows and cursor from there move down. An out-of-range position changes nothing. |
| `QtTable.Table.SetItem` | student_performance_pyqt6.py:197 | Qt keeps the items in one row-major list. The text goes to the one cell whose flat position `row * 9 + column` equals `r * 9 + c`, so a column past the last lands in a following row. A position outside the table changes nothing. |
| `QtTable.Table.SetCurrentCell` | student_performance_pyqt6.py:182 | The cursor moves to the cell. An index outside the table leaves no current cell. |
| `QtTable.Table.SetRowHidden` | student_performance_pyqt6.py:190 | Only that row's hidden flag changes. |
| `QtTable.Table.SortByColumn` | student_performance_pyqt6.py:134 | The sort that switching sorting on runs: row `p` becomes old row `order[p]`, its hidden flag moves with it, and a current cell stays on its row. |
| `StudentApp.LoadedCell` | student_performance_pyqt6.py:195-197 | Definition of what one flat table position holds after the first `i` records are loaded field by field: the field of the latest record that reaches it, or no item. Properties: `StudentApp.LoadedOwnField`, `StudentApp.LoadedPastFields`. |
| `StudentApp.LoadingCell` | student_performance_pyqt6.py:196-197 | Definition of a flat position while record `i` is being loaded and its first `j` fields are in. Properties: `StudentApp.LoadingStep`, `StudentApp.LoadingEnds`. |
| `StudentApp.Loaded` | student_performance_pyqt6.py:195-197 | Definition of the whole table `load_students` fills: one row per record, nine cells each, cell `(r, c)` being `LoadedCell` at flat position `r * 9 + c`. Properties: `StudentApp.App.LoadStudents`, `StudentApp.SaveAfterLoad`, `StudentApp.SaveAfterOpen`. |
| `StudentApp.LoadedOwnField` | student_performance_pyqt6.py:195-197 | A record's fields up to the ninth stay in its own row: no later record reaches them. |
| `StudentApp.LoadedPastFields` | student_performance_pyqt6.py:195-197 | When no record has more than nine fields, a cell past its own record's fields holds no item. |
| `StudentApp.LoadingStep` | student_performance_pyqt6.py:196-197 | One `setItem` of record `i`'s field `j`, at flat position `i * 9 + j`, takes the table from `j` fields of that record in to `j + 1`. |
| `StudentApp.LoadingEnds` | student_performance_pyqt6.py:195-197 | Before a record's first field the table is what the earlier records left, and after its last field it is what this record and the earlier ones leave. |
| `StudentApp.LoadedWhole` | student_performance_pyqt6.py:194-197 | A table of empty rows is what loading no record leaves, and a table in which every record has been loaded is `Loaded`. |
| `StudentApp.SpillExample` | student_performance_pyqt6.py:195-197 | For the records `["a","1",…,"8","X","9"]` (eleven fields) and `["b"]`, the second row reads back as `["b","9","","","","","","",""]`. The first record's tenth and eleventh fields spill into row 1, where `"b"` then replaces `"X"`. |
| `StudentApp.CellText` | student_performance_pyqt6.py:209 | Definition of `item.text() if item else ""`. Properties: `StudentApp.App.TableData`, `StudentApp.SaveAfterLoad`. |
| `StudentApp.Snapshot` | student_performance_pyqt6.py:204-210 | Definition of the nested list the save button reads: each cell's text, or `""` without an item. Properties: `StudentApp.App.TableData`, `StudentApp.SaveAfterLoad`, `StudentApp.SaveAfterOpen`. |
| `StudentApp.SaveAfterLoad` | student_performance_pyqt6.py:195-210 | For the table as `load_students` leaves it, before line 134 sorts it: reading it back gives each record's first nine fields in its own row. When no record has more than nine fields, each record comes back cut or padded with `""` to nine fields, and for nine-field records the list itself. |
| `StudentApp.SaveAfterOpen` | student_performance_pyqt6.py:133-134 | For the table as the window opens, after line 134's sort by `order`: a save writes back row `p` with record `order[p]`'s first nine fields. When no record has more than nine fields, row `p` is record `order[p]` cut or padded to nine fields. For nine-field records a save writes the records in the sorted order, each as often as before. |
| `StudentApp.App.constructor` | student_performance_pyqt6.py:129-134 | Opening the window binds the session's visible list, loads it into an empty nine-column table, and then sorts the rows: the table holds exactly the loaded rows, each as often as before, in the order `order` gives. All rows are visible and there is no current cell. |
| `StudentApp.App.LoadStudents` | student_performance_pyqt6.py:192-198 | The chart list is the session's visible list. The table is `Loaded`: one row per record, each field at flat position `row * 9 + column` with later records overwriting what earlier ones spilled. Every row is visible and there is no current cell. |
| `StudentApp.App.TableData` | student_performance_pyqt6.py:202-210 | There is one row per table row and exactly `columnCount` strings per row. Each string is the cell's text, or `""` where the cell has no item. |
| `StudentApp.App.SaveStudents` | student_performance_pyqt6.py:200-216 | The author is refused and the table and document are unchanged. Otherwise the owner's list becomes the table's text (one nine-string row per table row), which is their visible list from then on. Other accounts, the owner's password and email, and the key order are unchanged. The list the chart draws from is unchanged in both cases. |
| `StudentApp.App.AddStudent` | student_performance_pyqt6.py:218-219 | The row count grows by exactly one (an empty, visible row at the end), and the cursor stays. |
| `StudentApp.App.HandleKey` | student_performance_pyqt6.py:175-184 | On Return or Enter with the cursor on the last row, or no cursor on an empty table, one empty row is added and the cursor moves to its first column. Otherwise the row count is unchanged and the cursor moves to column 0 of the next row. Other keys change nothing. |
| `StudentApp.App.SearchStudent` | student_performance_pyqt6.py:186-190 | Row `i` is hidden exactly when it has no name cell, or when `lower(query)` is not a substring of `lower(name)`. Cells and cursor are unchanged. |

## Left out

- Widgets, layout, message boxes, window titles and the theme toggle (lines 250-256)
  are UI. So are `switch_graph` and `switch_feature` (lines 244-248), which only show a
  message.
- The matplotlib drawing, annotation and axis labels (lines 223-242) are library
  calls. `Ranking.ChartData` gives the bars' names, totals and colours they would
  draw. The redraw on every cell change (line 135) is not modelled as an event.
  `ChartData` is a function of the list, and the window's list does not change.
- The PDF export (lines 259-274) uses a foreign library with floating-point page
  coordinates.
- JSON reading and writing (lines 12-22) is file I/O. The document is a value:
  `AccountStore.Load` takes the parsed ordered dictionary, or `None` for a failed load.
  `persisted` holds the last document written. A document that parses but is not a
  mapping of accounts is not modelled.
- Accounts.AccountStore.Load: the model assumes every write of `accounts.json` succeeds.
  In the source, the fallback write at lines 17-18 is inside the `except:` handler and
  has no guard of its own. If the file cannot be written, for example because
  `accounts.json` is a directory or the directory is read-only, that write raises and the
  program stops at startup before any window opens. Likewise `save_accounts` at lines 95
  and 212 raises after lines 94 and 211 have already changed the in-memory table. The
  ensures of `Accounts.AccountStore.Signup`, `Accounts.AccountStore.SetStudents` and
  `Accounts.AccountStore.SaveAccounts` that `persisted == accounts` describe only a
  successful write.
- Record fields are strings. The JSON could hold numbers or other values there, which
  `str(val)` (line 197) and `str(v)` (line 231) would turn into text. The model takes
  them as text already.
- `random.randint` and the input dialog (lines 25-28) are inputs: `Signup` takes the
  code shown, the number entered and whether the dialog was confirmed.
- Scoring.TotalScoreEdit: `str.isdigit` and `int` are modelled for the ASCII digits
  `0`-`9` only. Python also accepts other Unicode decimal digits (such as `'٣'`), which
  this model counts as 0. For superscript digits such as `'²'`, `isdigit()` is true
  but `int` raises `ValueError`. A cell holding one makes line 231 raise, and with it
  `plot_graph`, both at login (line 172) and on every cell change (line 135). The model
  does not have this failure, and its "contributes 0" holds only for its ASCII domain.
  Python also limits integer string conversion to 4300 decimal digits (from CPython 3.11,
  and in the 3.7.14, 3.8.14, 3.9.14 and 3.10.7 security releases). A cell of more than
  4300 digits, such as `"1"*4301`, passes `isdigit()`, but `int` raises `ValueError`.
  So line 231 raises for it just as for a superscript digit. The model has no digit
  limit and gives that cell its value.
- Scoring.DecimalValue: has no digit limit. For a digit string of more than 4300 digits,
  Python's `int` raises `ValueError`, while the model returns the number.
- Scoring.DecimalRoundTrip: holds in Python only for numbers of at most 4300 digits. For
  larger numbers `str(n)` itself raises `ValueError`. The model states the round trip for
  every natural number.
- NameSearch.LongerQueryHidesMore: `str.lower` is modelled for ASCII letters only.
  Python lower-cases every Unicode letter, and its final-sigma rule breaks this
  property. `'ΑΣ'.lower()` is `'ας'` but `'ΑΣΑ'.lower()` is `'ασα'`. So a row named
  `ασα` is hidden by the query `ΑΣ` and shown again by the longer query `ΑΣΑ`.
- StudentApp.App.constructor: switching sorting on (line 134) makes Qt sort the rows at
  once by the header's sort section and order, which start at the Name column. The
  model takes the resulting order as the parameter `order` and does not compute Qt's
  text comparison. Sorting from a header click later is not modelled. Neither is the
  move of a row when its Name cell is edited while sorting is on. Rows added by Add
  Student or Enter have no items, so they do not move.
- StudentApp.SaveAfterLoad: states the round trip for the table before line 134 sorts
  it. Row by row it promises a record cut or padded to nine fields only when no record
  has more than nine; otherwise it promises each record's first nine fields, because
  extra fields spill into the next row. `StudentApp.SaveAfterOpen` states it for the sorted table that a save actually
  reads.
- Qt's own editing and navigation are not modelled: typing into a cell, clicking a
  cell, arrow keys. The cell contents and cursor they produce are taken as the
  table's state. `SetItem` and `SetCurrentCell` are the operations they amount to.
- QtTable.Table.SetRowCount: models only growing the table. The window calls it once,
  on an empty table. So `StudentApp.App.LoadStudents` requires an empty table with no
  current cell, as the constructor provides.
- Ranking.TopBottomDisjoint: needs pairwise distinct totals. With ties the claim fails
  (`Ranking.AllTied`).

=== FILE: accounts.dfy ===
// The account table of the student performance tracker: the fail-soft
// startup load, the login and signup rules, the records each session may
// see, and the owner's save.

module Accounts {
  import opened Base
  import OrderedDict

  type Dict<V> = OrderedDict.Dict<V>

  datatype Account = Account(password: string, email: string, students: seq<Row>)

  /** Who is logged in; only the hard-coded author identity is privileged. */
  datatype Session = Session(username: string, isAuthor: bool)

  datatype SignupOutcome = Created | MissingField | DuplicateUsername | EmailVerificationFailed

  const AuthorName: string := "prosun07a"
  const AuthorPassword: string := "147911"

  /** The verification dialog succeeds when it was not cancelled and the number typed is the code shown. */
  predicate EmailVerified(code: int, entered: int, ok: bool) {
    ok && entered == code
  }

  /** The login button: the author pair always gets in; anyone else needs an exact password match. */
  function Login(d: Dict<Account>, username: string, password: string): (r: Option<Session>)
    ensures username == AuthorName && password == AuthorPassword ==> r == Some(Session(username, true))
    ensures !(username == AuthorName && password == AuthorPassword) ==>
              (r.Some? <==> username in d.vals && d.vals[username].password == password)
    ensures r.Some? ==> r.value.username == username
    ensures r.Some? && r.value.isAuthor ==> username == AuthorName && password == AuthorPassword
    ensures r.Some? && !r.value.isAuthor ==> username in d.vals
  {
    if username == AuthorName && password == AuthorPassword then Some(Session(username, true))
    else if username in d.vals && d.vals[username].password == password then Some(Session(username, false))
    else None
  }

  /** A session the main window can be opened for: a plain user must own an account. */
  ghost predicate CanOpen(d: Dict<Account>, s: Session) {
    OrderedDict.Valid(d) && (!s.isAuthor ==> s.username in d.vals)
  }

  /** `sum([accounts[u]["students"] for u in keys], [])`: the lists joined left to right. */
  function Concat(d: Dict<Account>, keys: seq<string>): seq<Row>
    requires forall k :: k in keys ==> k in d.vals
  {
    if keys == [] then []
    else Concat(d, keys[..|keys| - 1]) + d.vals[keys[|keys| - 1]].students
  }

  /** The number of records held by the accounts in `keys`. */
  function RowTotal(d: Dict<Account>, keys: seq<string>): nat
    requires forall k :: k in keys ==> k in d.vals
  {
    if keys == [] then 0
    else RowTotal(d, keys[..|keys| - 1]) + |d.vals[keys[|keys| - 1]].students|
  }

  /** The records a session sees: its own list, or every account's list in dictionary order for the author. */
  function Visible(d: Dict<Account>, s: Session): seq<Row>
    requires CanOpen(d, s)
  {
    if s.isAuthor then Concat(d, d.keys) else d.vals[s.username].students
  }

  lemma {:induction false} ConcatLength(d: Dict<Account>, keys: seq<string>)
    requires forall k :: k in keys ==> k in d.vals
    ensures |Concat(d, keys)| == RowTotal(d, keys)
  {
    if keys != [] {
      ConcatLength(d, keys[..|keys| - 1]);
    }
  }

  /** Account `keys[i]`'s record `r` sits in the joined list right after the records of the accounts before it. */
  lemma {:induction false} ConcatBlock(d: Dict<Account>, keys: seq<string>, i: nat, r: nat)
    requires forall k :: k in keys ==> k in d.vals
    requires i < |keys| && r < |d.vals[keys[i]].students|
    ensures RowTotal(d, keys[..i]) + r < |Concat(d, keys)|
    ensures Concat(d, keys)[RowTotal(d, keys[..i]) + r] == d.vals[keys[i]].students[r]
  {
    var init := keys[..|keys| - 1];
    ConcatLength(d, init);
    if i == |keys| - 1 {
      assert keys[..i] == init;
    } else {
      assert init[..i] == keys[..i];
      ConcatBlock(d, init, i, r);
    }
  }

  /** The author sees as many records as all accounts hold together, each account's block in dictionary order. */
  lemma AuthorView(d: Dict<Account>, s: Session, i: nat, r: nat)
    requires CanOpen(d, s) && s.isAuthor
    requires i < |d.keys| && r < |d.vals[d.keys[i]].students|
    ensures |Visible(d, s)| == RowTotal(d, d.keys)
    ensures RowTotal(d, d.keys[..i]) + r < |Visible(d, s)|
    ensures Visible(d, s)[RowTotal(d, d.keys[..i]) + r] == d.vals[d.keys[i]].students[r]
  {
    ConcatLength(d, d.keys);
    ConcatBlock(d, d.keys, i, r);
  }

  /** The global `accounts` dictionary together with the document last written to accounts.json. */
  class AccountStore {
    var accounts: Dict<Account>
    var persisted: Dict<Account>

    ghost predicate Valid()
      reads this
    {
      OrderedDict.Valid(accounts)
    }

    /** Startup: a document that could not be read or parsed (`None`) yields an empty table, which is written back. */
    constructor Load(doc: Option<Dict<Account>>)
      requires doc.Some? ==> OrderedDict.Valid(doc.value)
      ensures Valid() && persisted == accounts
      ensures doc.None? ==> accounts == OrderedDict.Empty()
      ensures doc.Some? ==> accounts == doc.value
    {
      if doc.Some? {
        accounts := doc.value;
        persisted := doc.value;
      } else {
        accounts := OrderedDict.Empty();
        persisted := accounts;
      }
    }

    /** `save_accounts()`: the whole table is written out. */
    method SaveAccounts()
      modifies this`persisted
      ensures persisted == accounts
    {
      persisted := accounts;
    }

    /**
     * The signup button. The checks run in order: an empty field, a taken
     * username, then the verification dialog (`code` shown, `entered` typed,
     * `ok` false when cancelled). Only success changes the table.
     */
    method Signup(username: string, password: string, email: string, code: int, entered: int, ok: bool)
      returns (r: SignupOutcome)
      requires Valid()
      modifies this
      ensures Valid()
      ensures username == "" || password == "" || email == "" ==> r == MissingField
      ensures username != "" && password != "" && email != "" && username in old(accounts.vals) ==> r == DuplicateUsername
      ensures (username != "" && password != "" && email != "" && username !in old(accounts.vals)
                && !EmailVerified(code, entered, ok)) ==> r == EmailVerificationFailed
      ensures r == Created <==> (username != "" && password != "" && email != ""
                && username !in old(accounts.vals) && EmailVerified(code, entered, ok))
      ensures r != Created ==> accounts == old(accounts) && persisted == old(persisted)
      ensures r == Created ==> accounts.keys == old(accounts.keys) + [username]
      ensures r == Created ==> accounts.vals == old(accounts.vals)[username := Account(password, email, [])]
      ensures r == Created ==> persisted == accounts
    {
      if username == "" || password == "" || email == "" {
        return MissingField;
      }
      if username in accounts.vals {
        return DuplicateUsername;
      }
      if !EmailVerified(code, entered, ok) {
        return EmailVerificationFailed;
      }
      accounts := OrderedDict.Put(accounts, username, Account(password, email, []));
      SaveAccounts();
      r := Created;
    }

    /** `accounts[username]["students"] = data` followed by `save_accounts()`. */
    method SetStudents(username: string, data: seq<Row>)
      requires Valid() && username in accounts.vals
      modifies this
      ensures Valid() && persisted == accounts
      ensures accounts.keys == old(accounts.keys)
      ensures accounts.vals.Keys == old(accounts.vals.Keys)
      ensures accounts.vals[username] == old(accounts.vals[username]).(students := data)
      ensures forall u :: u in accounts.vals && u != username ==> accounts.vals[u] == old(accounts.vals[u])
      ensures Visible(accounts, Session(username, false)) == data
    {
      accounts := OrderedDict.Put(accounts, username, accounts.vals[username].(students := data));
      SaveAccounts();
    }
  }
}

=== FILE: app.dfy ===
// The main window after login: it loads the visible records into the
// nine-column table, lets the owner add rows, move with Enter, filter by
// name and save the table back into their account.

module StudentApp {
  import opened Base
  import opened Accounts
  import opened QtTable
  import opened NameSearch

  /** Name, Study, Sleep, Screen, Attendance, Stress, Exercise, Previous Score, Final Score. */
  const Columns: nat := 9

  datatype Key = ReturnKey | EnterKey | OtherKey

  /** `item.text() if item else ""`. */
  function CellText(c: Cell): string {
    match c
    case Some(t) => t
    case None => ""
  }

  /**
   * What flat position `f` of the table (row-major: row `f / cols`, column
   * `f % cols`) holds once the first `i` records have been loaded field by
   * field: the field of the latest of them that reaches `f`, or no item. A
   * record longer than the table is wide reaches into the following rows.
   */
  function LoadedCell(students: seq<Row>, cols: nat, f: int, i: nat): Cell
    requires i <= |students|
  {
    if i == 0 then None
    else if (i - 1) * cols <= f < (i - 1) * cols + |students[i - 1]| then Some(students[i - 1][f - (i - 1) * cols])
    else LoadedCell(students, cols, f, i - 1)
  }

  /** What flat position `f` holds while record `i` is being loaded and its first `j` fields are in. */
  function LoadingCell(students: seq<Row>, cols: nat, f: int, i: nat, j: nat): Cell
    requires i < |students| && j <= |students[i]|
  {
    if i * cols <= f < i * cols + j then Some(students[i][f - i * cols]) else LoadedCell(students, cols, f, i)
  }

  /** One `setItem` of record `i`'s field `j` takes the table from `j` fields in to `j + 1`. */
  lemma LoadingStep(before: seq<seq<Cell>>, after: seq<seq<Cell>>, students: seq<Row>, i: nat, j: nat)
    requires i < |students| && j < |students[i]| && |before| == |after| == |students|
    requires forall k :: 0 <= k < |before| ==> |before[k]| == Columns && |after[k]| == Columns
    requires forall k, c :: 0 <= k < |before| && 0 <= c < Columns ==>
               before[k][c] == LoadingCell(students, Columns, k * Columns + c, i, j)
    requires forall k, c :: 0 <= k < |after| && 0 <= c < Columns ==>
               after[k][c] == if k * Columns + c == i * Columns + j then Some(students[i][j]) else before[k][c]
    ensures forall k, c :: 0 <= k < |after| && 0 <= c < Columns ==>
              after[k][c] == LoadingCell(students, Columns, k * Columns + c, i, j + 1)
  {
  }

  /** Before record `i`'s first field, and after its last, the table is what loading the first `i`, or `i + 1`, records leaves. */
  lemma LoadingEnds(cells: seq<seq<Cell>>, students: seq<Row>, i: nat, j: nat)
    requires i < |students| && (j == 0 || j == |students[i]|) && |cells| == |students|
    requires forall k :: 0 <= k < |cells| ==> |cells[k]| == Columns
    ensures (forall k, c :: 0 <= k < |cells| && 0 <= c < Columns ==>
               cells[k][c] == LoadingCell(students, Columns, k * Columns + c, i, j))
            <==>
            (forall k, c :: 0 <= k < |cells| && 0 <= c < Columns ==>
               cells[k][c] == LoadedCell(students, Columns, k * Columns + c, if j == 0 then i else i + 1))
  {
  }

  /** A table of empty rows is what loading no record leaves; a fully loaded table is `Loaded`. */
  lemma LoadedWhole(cells: seq<seq<Cell>>, students: seq<Row>, i: nat)
    requires i == 0 || i == |students|
    requires |cells| == |students| && forall k :: 0 <= k < |cells| ==> |cells[k]| == Columns
    requires i == 0 ==> forall k :: 0 <= k < |cells| ==> cells[k] == EmptyRow(Columns)
    requires i != 0 ==> forall k, c :: 0 <= k < |cells| && 0 <= c < Columns ==>
               cells[k][c] == LoadedCell(students, Columns, k * Columns + c, i)
    ensures forall k, c :: 0 <= k < |cells| && 0 <= c < Columns ==>
              cells[k][c] == LoadedCell(students, Columns, k * Columns + c, i)
    ensures i == |students| ==> cells == Loaded(students, Columns)
  {
    if i == |students| {
      forall k | 0 <= k < |cells| ensures cells[k] == Loaded(students, Columns)[k] {
      }
    }
  }

  /** The table `load_students` leaves: cell (r, c) holds what reached flat position `r * cols + c`. */
  function Loaded(students: seq<Row>, cols: nat): (t: seq<seq<Cell>>)
    ensures |t| == |students| && forall r :: 0 <= r < |t| ==> |t[r]| == cols
  {
    seq(|students|, r requires 0 <= r < |students| =>
      seq(cols, c requires 0 <= c < cols => LoadedCell(students, cols, r * cols + c, |students|)))
  }

  /** A record's own fields, up to the table's width, stay in its row: no later record reaches them. */
  lemma {:induction false} LoadedOwnField(students: seq<Row>, cols: nat, r: nat, c: nat, i: nat)
    requires r < i <= |students| && c < cols && c < |students[r]|
    ensures LoadedCell(students, cols, r * cols + c, i) == Some(students[r][c])
    decreases i
  {
    if i - 1 > r {
      MulLe(r + 1, i - 1, cols);
      assert (r + 1) * cols == r * cols + cols;
      LoadedOwnField(students, cols, r, c, i - 1);
    }
  }

  /** With no record wider than the table, a cell past its own record's fields holds no item. */
  lemma {:induction false} LoadedPastFields(students: seq<Row>, cols: nat, r: nat, c: nat, i: nat)
    requires r < |students| && i <= |students| && c < cols
    requires forall k :: 0 <= k < |students| ==> |students[k]| <= cols
    requires r < i ==> |students[r]| <= c
    ensures LoadedCell(students, cols, r * cols + c, i) == None
    decreases i
  {
    if i > 0 {
      if i - 1 < r {
        MulLe(i, r, cols);
        assert i * cols == (i - 1) * cols + cols;
      } else if i - 1 > r {
        MulLe(r + 1, i - 1, cols);
        assert (r + 1) * cols == r * cols + cols;
      }
      LoadedPastFields(students, cols, r, c, i - 1);
    }
  }

  /** The text of every cell, row by row, as the save button reads it. */
  function Snapshot(cells: seq<seq<Cell>>, cols: nat): seq<Row> {
    seq(|cells|, i requires 0 <= i < |cells| =>
      seq(cols, j requires 0 <= j < cols => CellText(if j < |cells[i]| then cells[i][j] else None)))
  }

  /** A record cut or padded with "" to `cols` fields. */
  function Fit(s: Row, cols: nat): Row {
    seq(cols, j requires 0 <= j < cols => if j < |s| then s[j] else "")
  }

  /**
   * Saving right after loading gives back every record's own fields, up to
   * the table's width, in its own row. When no record is wider than the
   * table, each record comes back cut or padded with "" to the table's
   * width; records saved by this window have exactly that width, so for
   * them the round trip changes nothing.
   */
  lemma SaveAfterLoad(students: seq<Row>, cols: nat)
    ensures |Snapshot(Loaded(students, cols), cols)| == |students|
    ensures forall r, c :: 0 <= r < |students| && 0 <= c < cols && c < |students[r]| ==>
              Snapshot(Loaded(students, cols), cols)[r][c] == students[r][c]
    ensures (forall k :: 0 <= k < |students| ==> |students[k]| <= cols) ==>
              forall r :: 0 <= r < |students| ==> Snapshot(Loaded(students, cols), cols)[r] == Fit(students[r], cols)
    ensures (forall k :: 0 <= k < |students| ==> |students[k]| == cols) ==>
              Snapshot(Loaded(students, cols), cols) == students
  {
    var back := Snapshot(Loaded(students, cols), cols);
    forall r, c | 0 <= r < |students| && 0 <= c < cols && c < |students[r]|
      ensures back[r][c] == students[r][c]
    {
      LoadedOwnField(students, cols, r, c, |students|);
    }
    if forall k :: 0 <= k < |students| ==> |students[k]| <= cols {
      forall r | 0 <= r < |students|
        ensures back[r] == Fit(students[r], cols)
      {
        forall c | 0 <= c < cols
          ensures back[r][c] == Fit(students[r], cols)[c]
        {
          if c < |students[r]| {
            LoadedOwnField(students, cols, r, c, |students|);
          } else {
            LoadedPastFields(students, cols, r, c, |students|);
          }
        }
      }
      if forall k :: 0 <= k < |students| ==> |students[k]| == cols {
        forall r | 0 <= r < |students| ensures back[r] == students[r] {
          assert Fit(students[r], cols) == students[r];
        }
      }
    }
  }

  /**
   * A record wider than the table spills its extra fields into the next
   * row, under the next record's own fields: here "X" lands in row 1,
   * column 0, where "b" then replaces it, and "9" stays in row 1, column 1.
   */
  lemma SpillExample(students: seq<Row>)
    requires students == [["a", "1", "2", "3", "4", "5", "6", "7", "8", "X", "9"], ["b"]]
    ensures Snapshot(Loaded(students, Columns), Columns)[1] == ["b", "9", "", "", "", "", "", "", ""]
  {
    var row := Snapshot(Loaded(students, Columns), Columns)[1];
    assert LoadedCell(students, Columns, 9, 2) == Some("b");
    assert LoadedCell(students, Columns, 10, 2) == Some("9");
    forall c | 2 <= c < Columns ensures row[c] == "" {
      assert LoadedCell(students, Columns, 9 + c, 1) == None;
      assert Loaded(students, Columns)[1][c] == LoadedCell(students, Columns, 9 + c, 2);
    }
  }

  /**
   * Saving right after the window opens: the rows come back in the order
   * the sort left them, each with its record's own fields up to the
   * table's width. When no record is wider than the table, each comes back
   * cut or padded to the table's width; for records of exactly that width
   * the saved list holds exactly the loaded records, each as often as
   * before.
   */
  lemma SaveAfterOpen(students: seq<Row>, cols: nat, order: seq<int>)
    requires IsPermutation(order, |students|)
    ensures |Snapshot(Permute(Loaded(students, cols), order), cols)| == |students|
    ensures forall p, c :: 0 <= p < |students| && 0 <= c < cols && c < |students[order[p]]| ==>
              Snapshot(Permute(Loaded(students, cols), order), cols)[p][c] == students[order[p]][c]
    ensures (forall k :: 0 <= k < |students| ==> |students[k]| <= cols) ==>
              forall p :: 0 <= p < |students| ==>
                Snapshot(Permute(Loaded(students, cols), order), cols)[p] == Fit(students[order[p]], cols)
    ensures (forall k :: 0 <= k < |students| ==> |students[k]| == cols) ==>
              (&& Snapshot(Permute(Loaded(students, cols), order), cols) == Permute(students, order)
               && multiset(Snapshot(Permute(Loaded(students, cols), order), cols)) == multiset(students))
  {
    var back := Snapshot(Permute(Loaded(students, cols), order), cols);
    var plain := Snapshot(Loaded(students, cols), cols);
    SaveAfterLoad(students, cols);
    forall p | 0 <= p < |students|
      ensures back[p] == plain[order[p]]
    {
      assert Permute(Loaded(students, cols), order)[p] == Loaded(students, cols)[order[p]];
    }
    if forall i :: 0 <= i < |students| ==> |students[i]| == cols {
      assert back == Permute(students, order);
      PermuteMultiset(students, order);
    }
  }

  class App {
    const store: AccountStore
    const session: Session
    const table: Table
    /** The list bound by `load_students`; the chart is drawn from it. */
    var students: seq<Row>

    ghost predicate Valid()
      reads this, store, table
    {
      store.Valid() && table.Valid() && table.cols == Columns && CanOpen(store.accounts, session)
    }

    /**
     * Opening the main window loads the session's records into an empty
     * table, then switches sorting on, which sorts the rows at once: row `p`
     * of the table shows record `order[p]`, where `order` is the order Qt's
     * comparison of the Name column gives.
     */
    constructor (store: AccountStore, session: Session, order: seq<int>)
      requires store.Valid() && CanOpen(store.accounts, session)
      requires IsPermutation(order, |Visible(store.accounts, session)|)
      ensures Valid() && fresh(table)
      ensures this.store == store && this.session == session
      ensures students == Visible(store.accounts, session)
      ensures table.cells == Permute(Loaded(students, Columns), order)
      ensures multiset(table.cells) == multiset(Loaded(students, Columns))
      ensures table.hidden == seq(|students|, _ => false)
      ensures table.curRow == -1
    {
      this.store := store;
      this.session := session;
      table := new Table(Columns);
      new;
      LoadStudents();
      table.SortByColumn(order);
      PermuteMultiset(Loaded(students, Columns), order);
      assert Permute(seq(|students|, _ => false), order) == seq(|students|, _ => false);
    }

    /** `load_students`: bind the visible list, size the table, and put each field in its cell. */
    method LoadStudents()
      requires store.Valid() && table.Valid() && table.cols == Columns && CanOpen(store.accounts, session)
      requires table.cells == [] && table.curRow == -1
      modifies this, table
      ensures Valid()
      ensures students == Visible(store.accounts, session)
      ensures table.cells == Loaded(students, Columns)
      ensures table.hidden == seq(|students|, _ => false)
      ensures table.curRow == -1
    {
      var list := Visible(store.accounts, session);
      students := list;
      table.SetRowCount(|list|);
      LoadedWhole(table.cells, list, 0);
      var i := 0;
      while i < |list|
        invariant 0 <= i <= |list| && students == list
        invariant table.Valid() && table.cols == Columns && |table.cells| == |list|
        invariant forall k, c :: 0 <= k < |list| && 0 <= c < Columns ==>
                    table.cells[k][c] == LoadedCell(list, Columns, k * Columns + c, i)
        invariant table.hidden == seq(|list|, _ => false) && table.curRow == -1
      {
        var s := list[i];
        LoadingEnds(table.cells, list, i, 0);
        var j := 0;
        while j < |s|
          invariant 0 <= j <= |s| && students == list
          invariant table.Valid() && table.cols == Columns && |table.cells| == |list|
          invariant forall k, c :: 0 <= k < |list| && 0 <= c < Columns ==>
                      table.cells[k][c] == LoadingCell(list, Columns, k * Columns + c, i, j)
          invariant table.hidden == seq(|list|, _ => false) && table.curRow == -1
        {
          ghost var before := table.cells;
          table.SetItem(i, j, s[j]);
          LoadingStep(before, table.cells, list, i, j);
          j := j + 1;
        }
        LoadingEnds(table.cells, list, i, |s|);
        i := i + 1;
      }
      LoadedWhole(table.cells, list, |list|);
    }

    /** Lines 202-210: every row of the table, every column, as text ("" where a cell has no item). */
    method TableData() returns (data: seq<Row>)
      requires table.Valid()
      ensures |data| == |table.cells|
      ensures forall i :: 0 <= i < |data| ==> |data[i]| == table.cols
      ensures forall i, j :: 0 <= i < |data| && 0 <= j < table.cols ==> data[i][j] == CellText(table.Item(i, j))
      ensures data == Snapshot(table.cells, table.cols)
    {
      var rows := table.RowCount();
      var cols := table.cols;
      data := [];
      var i := 0;
      while i < rows
        invariant 0 <= i <= rows
        invariant |data| == i
        invariant forall k :: 0 <= k < i ==> |data[k]| == cols
        invariant forall k, c :: 0 <= k < i && 0 <= c < cols ==> data[k][c] == CellText(table.Item(k, c))
      {
        var rowData: Row := [];
        var j := 0;
        while j < cols
          invariant 0 <= j <= cols
          invariant |rowData| == j
          invariant forall c :: 0 <= c < j ==> rowData[c] == CellText(table.Item(i, c))
        {
          var item := table.Item(i, j);
          rowData := rowData + [CellText(item)];
          j := j + 1;
        }
        data := data + [rowData];
        i := i + 1;
      }
      forall k | 0 <= k < |data| ensures data[k] == Snapshot(table.cells, cols)[k] {
        assert |table.cells[k]| == cols;
      }
    }

    /**
     * The save button. The author is refused and nothing changes. Anyone
     * else gets their account's list replaced by the table's text, which is
     * what they see when they next log in; other accounts, their own
     * password and email, and the list the chart draws from stay as they were.
     */
    method SaveStudents() returns (saved: bool)
      requires Valid()
      modifies store
      ensures Valid()
      ensures saved == !session.isAuthor
      ensures students == old(students)
      ensures !saved ==> store.accounts == old(store.accounts) && store.persisted == old(store.persisted)
      ensures saved ==> store.persisted == store.accounts
      ensures saved ==> Visible(store.accounts, session) == Snapshot(table.cells, Columns)
      ensures saved ==> |Visible(store.accounts, session)| == |table.cells|
      ensures saved ==> forall r :: r in Visible(store.accounts, session) ==> |r| == Columns
      ensures saved ==> store.accounts.keys == old(store.accounts.keys)
      ensures saved ==> store.accounts.vals.Keys == old(store.accounts.vals.Keys)
      ensures saved ==> store.accounts.vals[session.username].password == old(store.accounts.vals[session.username].password)
      ensures saved ==> store.accounts.vals[session.username].email == old(store.accounts.vals[session.username].email)
      ensures saved ==> forall u :: u in store.accounts.vals && u != session.username ==>
                store.accounts.vals[u] == old(store.accounts.vals[u])
    {
      if !session.isAuthor {
        var data := TableData();
        store.SetStudents(session.username, data);
        saved := true;
      } else {
        saved := false;
      }
    }

    /** The Add Student button: one empty row at the end; the cursor stays. */
    method AddStudent()
      requires Valid()
      modifies table
      ensures Valid()
      ensures table.cells == old(table.cells) + [EmptyRow(Columns)]
      ensures table.hidden == old(table.hidden) + [false]
      ensures table.curRow == old(table.curRow) && table.curCol == old(table.curCol)
    {
      table.InsertRow(table.RowCount());
    }

    /**
     * Return or Enter moves to the first column of the next row, adding a
     * row when the cursor is on the last one (or there is none and the
     * table is empty). Any other key is passed to the window's own handler
     * and leaves the table as it was.
     */
    method HandleKey(key: Key)
      requires Valid()
      modifies table
      ensures Valid()
      ensures key == OtherKey ==> (table.cells == old(table.cells) && table.hidden == old(table.hidden)
                && table.curRow == old(table.curRow) && table.curCol == old(table.curCol))
      ensures key != OtherKey && old(table.curRow) + 1 >= |old(table.cells)| ==>
                (table.cells == old(table.cells) + [EmptyRow(Columns)] && table.hidden == old(table.hidden) + [false]
                && table.curRow == |table.cells| - 1 && table.curCol == 0)
      ensures key != OtherKey && old(table.curRow) + 1 < |old(table.cells)| ==>
                (table.cells == old(table.cells) && table.hidden == old(table.hidden)
                && table.curRow == old(table.curRow) + 1 && table.curCol == 0)
    {
      if key != OtherKey {
        var nextRow := table.curRow + 1;
        if nextRow >= table.RowCount() {
          table.InsertRow(table.RowCount());
          nextRow := table.RowCount() - 1;
        }
        table.SetCurrentCell(nextRow, 0);
      }
    }

    /** The search box: each row is hidden or shown by its name cell; nothing else changes. */
    method SearchStudent(query: string)
      requires Valid()
      modifies table
      ensures Valid()
      ensures table.cells == old(table.cells)
      ensures table.curRow == old(table.curRow) && table.curCol == old(table.curCol)
      ensures forall i :: 0 <= i < |table.cells| ==> table.hidden[i] == RowHidden(table.cells[i], query)
    {
      var text := Lower(query);
      var i := 0;
      while i < table.RowCount()
        invariant 0 <= i <= |table.cells|
        invariant table.Valid() && table.cols == Columns
        invariant table.cells == old(table.cells)
        invariant table.curRow == old(table.curRow) && table.curCol == old(table.curCol)
        invariant forall k :: 0 <= k < i ==> table.hidden[k] == RowHidden(table.cells[k], query)
      {
        var nameItem := table.Item(i, 0);
        table.SetRowHidden(i, if nameItem.Some? then !Contains(Lower(nameItem.value), text) else true);
        i := i + 1;
      }
    }
  }
}

=== FILE: base.dfy ===
// Types shared by every module: an optional value and a stored record.

module Base {
  datatype Option<+T> = None | Some(value: T)

  /** One stored student record: the text of each table cell, name first. */
  type Row = seq<string>
}

=== FILE: name_search.dfy ===
// The search box: a row stays visible when the lower-cased query occurs
// somewhere in the lower-cased text of its name cell; a row without a name
// cell is always hidden.

module NameSearch {
  import opened Base

  function LowerChar(c: char): char {
    if 'A' <= c <= 'Z' then (c as int + 32) as char else c
  }

  /** `str.lower()`, for the ASCII letters. */
  function Lower(s: string): string {
    seq(|s|, i requires 0 <= i < |s| => LowerChar(s[i]))
  }

  /** Python's `sub in s` on strings. */
  function Contains(s: string, sub: string): bool {
    if sub <= s then true
    else if s == [] then false
    else Contains(s[1..], sub)
  }

  /** `sub` occurs in `s` starting at position `i`. */
  predicate OccursAt(s: string, sub: string, i: int) {
    0 <= i && i + |sub| <= |s| && s[i..i + |sub|] == sub
  }

  /** `setRowHidden(i, ...)` at line 190, for a row of cells and the query typed. */
  predicate RowHidden(row: seq<Option<string>>, query: string) {
    if |row| == 0 || row[0].None? then true
    else !Contains(Lower(row[0].value), Lower(query))
  }

  /** The substring test finds `sub` exactly when it starts at some position of `s`. */
  lemma {:induction false} ContainsIffOccurs(s: string, sub: string)
    ensures Contains(s, sub) <==> exists i :: OccursAt(s, sub, i)
  {
    if sub <= s {
      assert OccursAt(s, sub, 0);
    } else if s != [] {
      ContainsIffOccurs(s[1..], sub);
      if exists i :: OccursAt(s, sub, i) {
        var i :| OccursAt(s, sub, i);
        if i > 0 {
          assert s[1..][i - 1..i - 1 + |sub|] == s[i..i + |sub|];
          assert OccursAt(s[1..], sub, i - 1);
        }
      }
      if exists i :: OccursAt(s[1..], sub, i) {
        var i :| OccursAt(s[1..], sub, i);
        assert s[1..][i..i + |sub|] == s[i + 1..i + 1 + |sub|];
        assert OccursAt(s, sub, i + 1);
      }
    }
  }

  /** With an empty query every row that has a name cell is shown. */
  lemma EmptyQueryShowsNamedRows(row: seq<Option<string>>)
    ensures RowHidden(row, "") <==> |row| == 0 || row[0].None?
  {
  }

  /** Typing any piece of a name, in any letter case, shows that row. */
  lemma PieceOfNameShowsRow(row: seq<Option<string>>, query: string, i: int)
    requires |row| > 0 && row[0].Some? && OccursAt(Lower(row[0].value), Lower(query), i)
    ensures !RowHidden(row, query)
  {
    ContainsIffOccurs(Lower(row[0].value), Lower(query));
  }

  /** A shown row is shown only if the query, lower-cased, occurs in its lower-cased name. */
  lemma ShownRowHasQuery(row: seq<Option<string>>, query: string)
    requires !RowHidden(row, query)
    ensures |row| > 0 && row[0].Some?
    ensures exists i :: OccursAt(Lower(row[0].value), Lower(query), i)
  {
    ContainsIffOccurs(Lower(row[0].value), Lower(query));
  }

  /** Typing one more character never brings a hidden row back. */
  lemma LongerQueryHidesMore(row: seq<Option<string>>, query: string, c: char)
    ensures RowHidden(row, query) ==> RowHidden(row, query + [c])
  {
    if |row| > 0 && row[0].Some? && !RowHidden(row, query + [c]) {
      var name := Lower(row[0].value);
      var q := Lower(query);
      assert Lower(query + [c]) == q + [LowerChar(c)];
      ContainsIffOccurs(name, q + [LowerChar(c)]);
      var i :| OccursAt(name, q + [LowerChar(c)], i);
      assert name[i..i + |q|] == (q + [LowerChar(c)])[..|q|] == q;
      assert OccursAt(name, q, i);
      ContainsIffOccurs(name, q);
    }
  }
}

=== FILE: ordered_dict.dfy ===
// A string-keyed dictionary that remembers insertion order, as Python's
// built-in dict does: iteration visits keys in the order they were first
// inserted, and assigning to an existing key keeps its position.

module OrderedDict {
  datatype Dict<V> = Dict(keys: seq<string>, vals: map<string, V>)

  /** Keys are listed once each, and exactly the keys of the map are listed. */
  ghost predicate Valid<V>(d: Dict<V>) {
    && (forall i, j :: 0 <= i < j < |d.keys| ==> d.keys[i] != d.keys[j])
    && (forall k :: k in d.vals <==> k in d.keys)
  }

  function Empty<V>(): (d: Dict<V>)
    ensures Valid(d)
    ensures forall k :: k !in d.vals
  {
    Dict([], map[])
  }

  /** `d[k] = v`: a new key goes to the end of the order, an existing one keeps its place. */
  function Put<V>(d: Dict<V>, k: string, v: V): (r: Dict<V>)
    requires Valid(d)
    ensures Valid(r)
    ensures k in r.vals && r.vals[k] == v
    ensures forall k' :: k' != k ==> (k' in r.vals <==> k' in d.vals)
    ensures forall k' :: k' != k && k' in d.vals ==> r.vals[k'] == d.vals[k']
    ensures k in d.vals ==> r.keys == d.keys
    ensures k !in d.vals ==> r.keys == d.keys + [k]
  {
    if k in d.vals then Dict(d.keys, d.vals[k := v])
    else Dict(d.keys + [k], d.vals[k := v])
  }
}

=== FILE: qt_table.dfy ===
// The state of the QTableWidget that holds the records on screen, with the
// handful of its operations the application calls. A cell either holds an
// item with some text or holds no item at all.

module QtTable {
  import opened Base

  type Cell = Option<string>

  /** A freshly inserted row: no item in any column. */
  function EmptyRow(cols: nat): (r: seq<Cell>)
    ensures |r| == cols && forall j :: 0 <= j < cols ==> r[j].None?
  {
    seq(cols, _ => None)
  }

  /** The positions 0..n-1 in order. */
  function Positions(n: nat): seq<int> {
    seq(n, i => i)
  }

  /** `order` lists each position 0..n-1 exactly once. */
  ghost predicate IsPermutation(order: seq<int>, n: nat) {
    && |order| == n
    && (forall p :: 0 <= p < n ==> 0 <= order[p] < n)
    && multiset(order) == multiset(Positions(n))
  }

  /** The rows of `s` rearranged so that place `p` holds old row `order[p]`. */
  function Permute<T>(s: seq<T>, order: seq<int>): (r: seq<T>)
    requires forall p :: 0 <= p < |order| ==> 0 <= order[p] < |s|
    ensures |r| == |order|
  {
    seq(|order|, p requires 0 <= p < |order| => s[order[p]])
  }

  /** Taking one entry out of a listing takes it out of its multiset. */
  lemma RemoveAt(b: seq<int>, k: nat)
    requires k < |b|
    ensures multiset(b[..k] + b[k + 1..]) == multiset(b) - multiset{b[k]}
  {
    assert b == b[..k] + [b[k]] + b[k + 1..];
  }

  /** Two listings of the same positions pick out the same rows, up to order. */
  lemma {:induction false} PermuteSameMultiset<T>(s: seq<T>, a: seq<int>, b: seq<int>)
    requires forall p :: 0 <= p < |a| ==> 0 <= a[p] < |s|
    requires forall p :: 0 <= p < |b| ==> 0 <= b[p] < |s|
    requires multiset(a) == multiset(b)
    ensures multiset(Permute(s, a)) == multiset(Permute(s, b))
    decreases |a|
  {
    if |a| == 0 {
      assert |b| == |multiset(b)| == 0;
      assert Permute(s, a) == [] == Permute(s, b);
    } else {
      var k := MatchFirst(a, b);
      var rest := b[..k] + b[k + 1..];
      assert forall p :: 0 <= p < |rest| ==> 0 <= rest[p] < |s| by {
        forall p | 0 <= p < |rest| ensures 0 <= rest[p] < |s| {
          assert rest[p] == if p < k then b[p] else b[p + 1];
        }
      }
      PermuteSameMultiset(s, a[1..], rest);
      PermuteStep(s, a, b, k);
    }
  }

  /** Where the first position of `a` sits in a listing `b` of the same positions. */
  lemma MatchFirst(a: seq<int>, b: seq<int>) returns (k: nat)
    requires |a| > 0 && multiset(a) == multiset(b)
    ensures k < |b| && b[k] == a[0]
    ensures multiset(a[1..]) == multiset(b[..k] + b[k + 1..])
  {
    assert a[0] in multiset(a);
    k :| 0 <= k < |b| && b[k] == a[0];
    RemoveAt(b, k);
    assert a == [a[0]] + a[1..];
  }

  /** The step of the induction: match the first position of `a` with position `k` of `b`. */
  lemma PermuteStep<T>(s: seq<T>, a: seq<int>, b: seq<int>, k: nat)
    requires forall p :: 0 <= p < |a| ==> 0 <= a[p] < |s|
    requires forall p :: 0 <= p < |b| ==> 0 <= b[p] < |s|
    requires |a| > 0 && k < |b| && b[k] == a[0]
    requires multiset(Permute(s, a[1..])) == multiset(Permute(s, b[..k] + b[k + 1..]))
    ensures multiset(Permute(s, a)) == multiset(Permute(s, b))
  {
    var x := a[0];
    assert multiset(Permute(s, a)) == multiset{s[x]} + multiset(Permute(s, a[1..])) by {
      PermuteConcat(s, [x], a[1..]);
      assert a == [x] + a[1..];
      assert Permute(s, [x]) == [s[x]];
    }
    PermuteRemove(s, b, k);
  }

  /** Taking one position out of a listing takes its row out of the rows picked. */
  lemma PermuteRemove<T>(s: seq<T>, b: seq<int>, k: nat)
    requires forall p :: 0 <= p < |b| ==> 0 <= b[p] < |s|
    requires k < |b|
    ensures multiset(Permute(s, b)) == multiset(Permute(s, b[..k] + b[k + 1..])) + multiset{s[b[k]]}
  {
    var x := b[k];
    assert b == b[..k] + ([x] + b[k + 1..]);
    PermuteConcat(s, b[..k], [x] + b[k + 1..]);
    PermuteConcat(s, [x], b[k + 1..]);
    PermuteConcat(s, b[..k], b[k + 1..]);
  }

  lemma PermuteConcat<T>(s: seq<T>, a: seq<int>, b: seq<int>)
    requires forall p :: 0 <= p < |a| ==> 0 <= a[p] < |s|
    requires forall p :: 0 <= p < |b| ==> 0 <= b[p] < |s|
    ensures Permute(s, a + b) == Permute(s, a) + Permute(s, b)
  {
  }

  /** A rearrangement by a permutation keeps every row, as often as it occurred. */
  lemma PermuteMultiset<T>(s: seq<T>, order: seq<int>)
    requires IsPermutation(order, |s|)
    ensures multiset(Permute(s, order)) == multiset(s)
  {
    PermuteSameMultiset(s, order, Positions(|s|));
    assert Permute(s, Positions(|s|)) == s;
  }

  /** Multiplication by a non-negative factor keeps order. */
  lemma MulLe(a: int, b: int, k: nat)
    requires a <= b
    ensures a * k <= b * k
  {
  }

  /** In a row-major layout each cell of the table has its own flat position. */
  lemma FlatUnique(i: int, j: int, r: int, c: int, cols: int)
    requires 0 <= j < cols && 0 <= c < cols
    ensures i * cols + j == r * cols + c <==> i == r && j == c
  {
    if i < r {
      MulLe(i + 1, r, cols);
    } else if r < i {
      MulLe(r + 1, i, cols);
    }
  }

  /** The row and column of a flat position inside a table of `n` rows. */
  lemma FlatSplit(f: int, n: nat, cols: nat)
    requires 0 <= f < n * cols
    ensures cols > 0 && 0 <= f / cols < n && 0 <= f % cols < cols
    ensures (f / cols) * cols + f % cols == f
  {
  }

  /** Writing one cell of a row-major table changes exactly the cell at that flat position. */
  lemma WriteInside(cells: seq<seq<Cell>>, cols: nat, row: nat, col: nat, text: string)
    requires forall i :: 0 <= i < |cells| ==> |cells[i]| == cols
    requires row < |cells| && col < cols
    ensures forall i, j :: 0 <= i < |cells| && 0 <= j < cols ==>
              cells[row := cells[row][col := Some(text)]][i][j]
                == if i * cols + j == row * cols + col then Some(text) else cells[i][j]
  {
    forall i, j | 0 <= i < |cells| && 0 <= j < cols
      ensures cells[row := cells[row][col := Some(text)]][i][j]
                == if i * cols + j == row * cols + col then Some(text) else cells[i][j]
    {
      FlatUnique(i, j, row, col, cols);
    }
  }

  /** A flat position outside the table is the position of no cell, so writing there changes nothing. */
  lemma WriteOutside(cells: seq<seq<Cell>>, cols: nat, f: int, text: string)
    requires !(0 <= f < |cells| * cols)
    ensures forall i, j :: 0 <= i < |cells| && 0 <= j < |cells[i]| && j < cols ==>
              cells[i][j] == if i * cols + j == f then Some(text) else cells[i][j]
  {
    forall i, j | 0 <= i < |cells| && 0 <= j < |cells[i]| && j < cols
      ensures cells[i][j] == if i * cols + j == f then Some(text) else cells[i][j]
    {
      MulLe(i + 1, |cells|, cols);
    }
  }

  class Table {
    const cols: nat
    var cells: seq<seq<Cell>>
    var hidden: seq<bool>
    /** The current cell; -1 when there is none. */
    var curRow: int
    var curCol: int

    ghost predicate Valid()
      reads this
    {
      && |hidden| == |cells|
      && (forall i :: 0 <= i < |cells| ==> |cells[i]| == cols)
      && -1 <= curRow < |cells| && -1 <= curCol < cols
      && (curRow == -1 <==> curCol == -1)
    }

    function RowCount(): nat
      reads this
    {
      |cells|
    }

    constructor (columnCount: nat)
      ensures Valid() && cols == columnCount
      ensures cells == [] && hidden == [] && curRow == -1 && curCol == -1
    {
      cols := columnCount;
      cells, hidden := [], [];
      curRow, curCol := -1, -1;
    }

    /** `item(r, c)`: the cell's item, none outside the table. */
    function Item(r: int, c: int): (item: Cell)
      reads this
      requires Valid()
      ensures !(0 <= r < |cells| && 0 <= c < cols) ==> item.None?
      ensures 0 <= r < |cells| && 0 <= c < cols ==> item == cells[r][c]
    {
      if 0 <= r < |cells| && 0 <= c < cols then cells[r][c] else None
    }

    /** `setRowCount(n)` on a table that is to grow: empty, visible rows are added at the end. */
    method SetRowCount(n: nat)
      requires Valid() && |cells| <= n
      modifies this
      ensures Valid()
      ensures cells == old(cells) + seq(n - |old(cells)|, _ => EmptyRow(cols))
      ensures hidden == old(hidden) + seq(n - |old(cells)|, _ => false)
      ensures curRow == old(curRow) && curCol == old(curCol)
    {
      cells := cells + seq(n - |cells|, _ => EmptyRow(cols));
      hidden := hidden + seq(n - |hidden|, _ => false);
    }

    /** `insertRow(row)`: an empty, visible row at position `row`; rows from there on, and the cursor, move down. */
    method InsertRow(row: int)
      requires Valid()
      modifies this
      ensures Valid()
      ensures !(0 <= row <= |old(cells)|) ==>
                cells == old(cells) && hidden == old(hidden) && curRow == old(curRow) && curCol == old(curCol)
      ensures 0 <= row <= |old(cells)| ==> cells == old(cells)[..row] + [EmptyRow(cols)] + old(cells)[row..]
      ensures 0 <= row <= |old(cells)| ==> hidden == old(hidden)[..row] + [false] + old(hidden)[row..]
      ensures 0 <= row <= |old(cells)| ==>
                curRow == (if old(curRow) >= row then old(curRow) + 1 else old(curRow)) && curCol == old(curCol)
    {
      if 0 <= row <= |cells| {
        cells := cells[..row] + [EmptyRow(cols)] + cells[row..];
        hidden := hidden[..row] + [false] + hidden[row..];
        if curRow >= row {
          curRow := curRow + 1;
        }
      }
    }

    /**
     * `setItem(r, c, QTableWidgetItem(text))`. Qt keeps the items in one
     * row-major list and stores the new item at position `r * columnCount + c`
     * whenever that position is inside the table, so a column past the last
     * one lands in a following row. A position outside the table is ignored.
     */
    method SetItem(r: int, c: int, text: string)
      requires Valid()
      modifies this`cells
      ensures Valid()
      ensures |cells| == |old(cells)|
      ensures forall i, j :: 0 <= i < |cells| && 0 <= j < cols ==>
                cells[i][j] == if i * cols + j == r * cols + c then Some(text) else old(cells)[i][j]
    {
      var f := r * cols + c;
      if 0 <= f < |cells| * cols {
        FlatSplit(f, |cells|, cols);
        var row, col := f / cols, f % cols;
        WriteInside(cells, cols, row, col, text);
        cells := cells[row := cells[row][col := Some(text)]];
      } else {
        WriteOutside(cells, cols, f, text);
      }
    }

    /** `setCurrentCell(r, c)`; an index outside the table leaves no current cell. */
    method SetCurrentCell(r: int, c: int)
      requires Valid()
      modifies this`curRow, this`curCol
      ensures Valid()
      ensures 0 <= r < |cells| && 0 <= c < cols ==> curRow == r && curCol == c
      ensures !(0 <= r < |cells| && 0 <= c < cols) ==> curRow == -1 && curCol == -1
    {
      if 0 <= r < |cells| && 0 <= c < cols {
        curRow, curCol := r, c;
      } else {
        curRow, curCol := -1, -1;
      }
    }

    /**
     * `sortByColumn`, as `setSortingEnabled(True)` runs it: row `p` afterwards
     * is old row `order[p]` with its hidden flag, and the current cell, if
     * any, moves with its row. The order comes from Qt's comparison of the
     * sort column's text.
     */
    method SortByColumn(order: seq<int>)
      requires Valid() && IsPermutation(order, |cells|)
      modifies this`cells, this`hidden, this`curRow
      ensures Valid()
      ensures cells == Permute(old(cells), order) && hidden == Permute(old(hidden), order)
      ensures old(curRow) == -1 ==> curRow == -1
      ensures old(curRow) != -1 ==> 0 <= curRow < |cells| && order[curRow] == old(curRow)
      ensures curCol == old(curCol)
    {
      if curRow != -1 {
        assert Positions(|cells|)[curRow] == curRow;
        assert curRow in multiset(order);
        var p := 0;
        while order[p] != curRow
          invariant 0 <= p < |order|
          invariant curRow in order[p..]
          decreases |order| - p
        {
          assert order[p..] == [order[p]] + order[p + 1..];
          p := p + 1;
        }
        curRow := p;
      }
      cells := Permute(cells, order);
      hidden := Permute(hidden, order);
    }

    /** `setRowHidden(r, h)`; ignored outside the table. */
    method SetRowHidden(r: int, h: bool)
      requires Valid()
      modifies this`hidden
      ensures Valid()
      ensures 0 <= r < |cells| ==> hidden == old(hidden)[r := h]
      ensures !(0 <= r < |cells|) ==> hidden == old(hidden)
    {
      if 0 <= r < |cells| {
        hidden := hidden[r := h];
      }
    }
  }
}

=== FILE: ranking.dfy ===
// The data behind the bar chart: one bar per record, carrying its name and
// total, coloured green for the three best totals, red for the three
// worst, blue otherwise. "Best" and "worst" come from Python's stable
// `sorted`, so equal totals keep their list order in both directions.

module Ranking {
  import opened Base
  import opened Scoring

  datatype Tag = Top | Bottom | Middle

  datatype Bar = Bar(name: string, total: nat, tag: Tag)

  /**
   * Index `a` comes before index `b` in
   * `sorted(range(len(values)), key=lambda x: values[x], reverse=desc)`:
   * it has the better value, or the same value and a smaller index.
   */
  predicate Precedes(values: seq<int>, desc: bool, a: nat, b: nat)
    requires a < |values| && b < |values|
  {
    (if desc then values[a] > values[b] else values[a] < values[b])
    || (values[a] == values[b] && a < b)
  }

  ghost predicate InRange(values: seq<int>, s: seq<nat>) {
    forall k :: 0 <= k < |s| ==> s[k] < |values|
  }

  /** Every index in `s` comes before every later one. */
  ghost predicate Ordered(values: seq<int>, desc: bool, s: seq<nat>)
    requires InRange(values, s)
  {
    forall p, q :: 0 <= p < q < |s| ==> Precedes(values, desc, s[p], s[q])
  }

  /** Places `x` after the indices that come before it. */
  function Insert(values: seq<int>, desc: bool, x: nat, s: seq<nat>): (r: seq<nat>)
    requires x < |values| && InRange(values, s) && Ordered(values, desc, s) && x !in s
    ensures |r| == |s| + 1 && InRange(values, r) && Ordered(values, desc, r)
    ensures forall y :: y in r <==> y == x || y in s
  {
    if s == [] then [x]
    else if Precedes(values, desc, x, s[0]) then [x] + s
    else
      var rest := Insert(values, desc, x, s[1..]);
      assert forall y :: y in rest ==> Precedes(values, desc, s[0], y) by {
        forall y | y in rest ensures Precedes(values, desc, s[0], y) {
          if y != x {
            var q :| 0 <= q < |s[1..]| && s[1..][q] == y;
            assert s[q + 1] == y;
          }
        }
      }
      [s[0]] + rest
  }

  /** The indices `0 .. n-1`, sorted. */
  function SortFirst(values: seq<int>, desc: bool, n: nat): (r: seq<nat>)
    requires n <= |values|
    ensures |r| == n && InRange(values, r) && Ordered(values, desc, r)
    ensures forall y: nat :: y in r <==> y < n
  {
    if n == 0 then [] else Insert(values, desc, n - 1, SortFirst(values, desc, n - 1))
  }

  /** `sorted(range(len(values)), key=lambda x: values[x], reverse=desc)`. */
  function SortedIndices(values: seq<int>, desc: bool): (r: seq<nat>)
    ensures |r| == |values| && InRange(values, r) && Ordered(values, desc, r)
    ensures forall y: nat :: y in r <==> y < |values|
  {
    SortFirst(values, desc, |values|)
  }

  /** `sorted(...)[:3]`: the three leading indices, or all of them when there are fewer. */
  function FirstThree(values: seq<int>, desc: bool): seq<nat> {
    var r := SortedIndices(values, desc);
    r[..if |r| < 3 then |r| else 3]
  }

  /** The colour list of lines 234-236: Top is tested first, so it wins over Bottom. */
  function Tags(values: seq<int>): seq<Tag> {
    seq(|values|, i requires 0 <= i < |values| =>
      if i in FirstThree(values, true) then Top
      else if i in FirstThree(values, false) then Bottom
      else Middle)
  }

  /** How many indices come before `i`; the reference for a place in the sorted order. */
  ghost function Rank(values: seq<int>, desc: bool, i: nat): nat
    requires i < |values|
  {
    |Before(values, desc, i)|
  }

  /** The indices that come before `i`. */
  ghost function Before(values: seq<int>, desc: bool, i: nat): set<nat>
    requires i < |values|
  {
    set j: nat | j < |values| && Precedes(values, desc, j, i)
  }

  /** Any two orderings of the same indices are equal: the sorted order is the only one. */
  lemma {:induction false} OrderedUnique(values: seq<int>, desc: bool, s: seq<nat>, t: seq<nat>)
    requires InRange(values, s) && Ordered(values, desc, s)
    requires InRange(values, t) && Ordered(values, desc, t)
    requires forall y :: y in s <==> y in t
    ensures s == t
  {
    if s != [] {
      assert s[0] in t;
    }
    if t != [] {
      assert t[0] in s;
    }
    if s != [] {
      var i :| 0 <= i < |s| && s[i] == t[0];
      var j :| 0 <= j < |t| && t[j] == s[0];
      assert i == 0;
      forall y ensures y in s[1..] <==> y in t[1..] {
        if y in s[1..] {
          var p :| 0 <= p < |s[1..]| && s[1..][p] == y;
          assert Precedes(values, desc, s[0], s[p + 1]);
          assert y in t;
          var q :| 0 <= q < |t| && t[q] == y;
          assert t[1..][q - 1] == y;
        }
        if y in t[1..] {
          var p :| 0 <= p < |t[1..]| && t[1..][p] == y;
          assert Precedes(values, desc, t[0], t[p + 1]);
          assert y in s;
          var q :| 0 <= q < |s| && s[q] == y;
          assert s[1..][q - 1] == y;
        }
      }
      OrderedUnique(values, desc, s[1..], t[1..]);
      assert s == [s[0]] + s[1..] && t == [t[0]] + t[1..];
    }
  }

  /** Any ordering of all the indices is the one `sorted` returns. */
  lemma SortedIndicesAre(values: seq<int>, desc: bool, t: seq<nat>)
    requires InRange(values, t) && Ordered(values, desc, t)
    requires forall y: nat :: y in t <==> y < |values|
    ensures SortedIndices(values, desc) == t
  {
    OrderedUnique(values, desc, SortedIndices(values, desc), t);
  }

  lemma {:induction false} DistinctCard(s: seq<nat>)
    requires forall p, q :: 0 <= p < q < |s| ==> s[p] != s[q]
    ensures |set x: nat | x in s| == |s|
  {
    if s != [] {
      var init := s[..|s| - 1];
      DistinctCard(init);
      var last := s[|s| - 1];
      assert s == init + [last];
      var before := set x: nat | x in init;
      assert (set x: nat | x in s) == before + {last};
      assert last !in init;
      assert |before + {last}| == |before| + 1;
    } else {
      assert (set x: nat | x in s) == {};
    }
  }

  /** The index at place `p` of the sorted order has exactly `p` indices before it. */
  lemma PlaceIsRank(values: seq<int>, desc: bool, p: nat)
    requires p < |values|
    ensures Rank(values, desc, SortedIndices(values, desc)[p]) == p
  {
    var r := SortedIndices(values, desc);
    var before := Before(values, desc, r[p]);
    var prefix := r[..p];
    assert before == set x: nat | x in prefix by {
      forall x ensures x in before <==> x in prefix {
        if x in prefix {
          var k :| 0 <= k < p && r[k] == x;
          assert Precedes(values, desc, r[k], r[p]);
        }
        if x in before {
          assert x in r;
          var k :| 0 <= k < |r| && r[k] == x;
          assert k < p;
          assert prefix[k] == x;
        }
      }
    }
    DistinctCard(prefix);
  }

  /** An index is among the first three of the sorted order exactly when fewer than three indices come before it. */
  lemma FirstThreeByRank(values: seq<int>, desc: bool, i: nat)
    requires i < |values|
    ensures i in FirstThree(values, desc) <==> Rank(values, desc, i) < 3
  {
    var r := SortedIndices(values, desc);
    assert i in r;
    var p :| 0 <= p < |r| && r[p] == i;
    PlaceIsRank(values, desc, p);
    if i in FirstThree(values, desc) {
      var k :| 0 <= k < |FirstThree(values, desc)| && FirstThree(values, desc)[k] == i;
      assert r[k] == r[p];
      assert k == p;
    }
  }

  /**
   * One tag per record: green when fewer than three records rank above it
   * (larger total, or equal total and earlier), else red when fewer than
   * three rank below-first (smaller total, or equal and earlier), else blue.
   */
  lemma TagsByRank(values: seq<int>, i: nat)
    requires i < |values|
    ensures |Tags(values)| == |values|
    ensures Tags(values)[i] == Top <==> Rank(values, true, i) < 3
    ensures Tags(values)[i] == Bottom <==> Rank(values, true, i) >= 3 && Rank(values, false, i) < 3
    ensures Tags(values)[i] == Middle <==> Rank(values, true, i) >= 3 && Rank(values, false, i) >= 3
  {
    FirstThreeByRank(values, true, i);
    FirstThreeByRank(values, false, i);
  }

  /** No two records share a total. */
  ghost predicate DistinctValues(values: seq<int>) {
    forall a, b :: 0 <= a < b < |values| ==> values[a] != values[b]
  }

  /** With pairwise distinct totals, every other record is either above or below a record. */
  lemma OthersSplit(values: seq<int>, i: nat)
    requires i < |values| && DistinctValues(values)
    ensures Before(values, true, i) * Before(values, false, i) == {}
    ensures Before(values, true, i) + Before(values, false, i)
              == (set x: nat | x in SortedIndices(values, true)) - {i}
  {
  }

  lemma RanksAddUp(values: seq<int>, i: nat)
    requires i < |values| && DistinctValues(values)
    ensures Rank(values, true, i) + Rank(values, false, i) == |values| - 1
  {
    var r := SortedIndices(values, true);
    var all := set x: nat | x in r;
    DistinctCard(r);
    OthersSplit(values, i);
    var above, below := Before(values, true, i), Before(values, false, i);
    assert i in all;
    assert |all - {i}| == |all| - 1;
    assert |above + below| == |above| + |below|;
  }

  /** With six or more records and no tied totals, no record is both among the best three and the worst three. */
  lemma TopBottomDisjoint(values: seq<int>, i: nat)
    requires 6 <= |values| && i < |values| && DistinctValues(values)
    ensures !(i in FirstThree(values, true) && i in FirstThree(values, false))
  {
    FirstThreeByRank(values, true, i);
    FirstThreeByRank(values, false, i);
    RanksAddUp(values, i);
  }

  /**
   * When every total is the same, both sorts keep list order: the first
   * three records are both the best and the worst three, they are tagged
   * Top, and no record is tagged Bottom.
   */
  lemma AllTied(values: seq<int>, i: nat)
    requires 3 <= |values| && i < |values|
    requires forall k :: 0 <= k < |values| ==> values[k] == values[0]
    ensures FirstThree(values, true) == FirstThree(values, false) == [0, 1, 2]
    ensures Tags(values)[i] == if i < 3 then Top else Middle
  {
    var id := seq(|values|, k requires 0 <= k < |values| => k as nat);
    assert forall y: nat :: y in id <==> y < |values| by {
      forall y: nat | y < |values| ensures y in id { assert id[y] == y; }
    }
    SortedIndicesAre(values, true, id);
    SortedIndicesAre(values, false, id);
    assert id[..3] == [0, 1, 2];
  }

  /** Totals 30, 10, 50, 20, 5, 40, 15: green for 50, 40, 30, red for 5, 10, 15. */
  lemma SevenRecordExample(values: seq<int>)
    requires values == [30, 10, 50, 20, 5, 40, 15]
    ensures Tags(values) == [Top, Bottom, Top, Middle, Bottom, Top, Bottom]
  {
    SevenRecordDescending(values);
    SevenRecordAscending(values);
    assert FirstThree(values, true) == [2, 5, 0];
    assert FirstThree(values, false) == [4, 1, 6];
  }

  /** The best-first order of the seven-record example. */
  lemma SevenRecordDescending(values: seq<int>)
    requires values == [30, 10, 50, 20, 5, 40, 15]
    ensures SortedIndices(values, true) == [2, 5, 0, 3, 6, 1, 4]
  {
    var down := [2, 5, 0, 3, 6, 1, 4];
    assert InRange(values, down) && Ordered(values, true, down);
    SortedIndicesAre(values, true, down);
  }

  /** The worst-first order of the seven-record example. */
  lemma SevenRecordAscending(values: seq<int>)
    requires values == [30, 10, 50, 20, 5, 40, 15]
    ensures SortedIndices(values, false) == [4, 1, 6, 3, 0, 5, 2]
  {
    var up := [4, 1, 6, 3, 0, 5, 2];
    assert InRange(values, up) && Ordered(values, false, up);
    SortedIndicesAre(values, false, up);
  }

  /** The totals list built by the loop at lines 229-232. */
  ghost function Totals(students: seq<Row>): seq<int> {
    seq(|students|, i requires 0 <= i < |students| => TotalScore(students[i]))
  }

  /**
   * The chart's data for a record list: nothing for an empty list, a failure
   * (Python's IndexError on `s[0]`) when a record is empty, else one bar per
   * record with its name, its total and its colour.
   */
  method ChartData(students: seq<Row>) returns (bars: Option<seq<Bar>>)
    ensures students == [] ==> bars == Some([])
    ensures bars.None? <==> exists i :: 0 <= i < |students| && students[i] == []
    ensures bars.Some? ==> |bars.value| == |students|
    ensures bars.Some? ==> forall i :: 0 <= i < |students| ==>
              bars.value[i] == Bar(students[i][0], TotalScore(students[i]), Tags(Totals(students))[i])
  {
    if students == [] {
      return Some([]);
    }
    if exists i :: 0 <= i < |students| && students[i] == [] {
      return None;
    }
    var totals: seq<nat> := [];
    var i := 0;
    while i < |students|
      invariant i <= |students|
      invariant |totals| == i
      invariant forall k :: 0 <= k < i ==> totals[k] == TotalScore(students[k])
    {
      totals := totals + [TotalScore(students[i])];
      i := i + 1;
    }
    assert totals == Totals(students);
    var tags := Tags(totals);
    bars := Some(seq(|students|, k requires 0 <= k < |students| => Bar(students[k][0], totals[k], tags[k])));
  }
}

=== FILE: scoring.dfy ===
// The total score of a student record: every field after the name that is
// a run of decimal digits, read as a number, summed; any other text counts
// nothing and never raises.

module Scoring {
  import opened Base

  predicate IsDigit(c: char) {
    '0' <= c <= '9'
  }

  /** `str.isdigit()` restricted to ASCII: non-empty and all digits (so "" and "-3" are not). */
  predicate IsDigitString(v: string) {
    |v| > 0 && forall i :: 0 <= i < |v| ==> IsDigit(v[i])
  }

  /** `int(v)` for a string of decimal digits, most significant digit first. */
  function DecimalValue(v: string): nat
    requires forall i :: 0 <= i < |v| ==> IsDigit(v[i])
  {
    if |v| == 0 then 0
    else
      assert IsDigit(v[|v| - 1]);
      DecimalValue(v[..|v| - 1]) * 10 + (v[|v| - 1] as int - '0' as int)
  }

  /** What one field adds to the total. */
  function FieldValue(v: string): nat {
    if IsDigitString(v) then DecimalValue(v) else 0
  }

  function SumFields(fields: seq<string>): nat {
    if fields == [] then 0 else FieldValue(fields[0]) + SumFields(fields[1..])
  }

  /** `sum([int(v) for v in s[1:] if str(v).isdigit()])`. */
  function TotalScore(s: Row): nat {
    if |s| == 0 then 0 else SumFields(s[1..])
  }

  /** The decimal spelling of a number, as `str(n)` writes it. */
  function Decimal(n: nat): (r: string)
    ensures IsDigitString(r)
  {
    if n < 10 then [('0' as int + n) as char]
    else Decimal(n / 10) + [('0' as int + n % 10) as char]
  }

  /** Reading back the decimal spelling of any number gives that number. */
  lemma {:induction false} DecimalRoundTrip(n: nat)
    ensures FieldValue(Decimal(n)) == n
  {
    var v := Decimal(n);
    if n >= 10 {
      DecimalRoundTrip(n / 10);
      assert v[..|v| - 1] == Decimal(n / 10);
      assert v[|v| - 1] as int - '0' as int == n % 10;
    } else {
      assert v[..|v| - 1] == [];
      assert v[|v| - 1] as int - '0' as int == n;
      assert DecimalValue(v[..|v| - 1]) == 0;
      assert DecimalValue(v) == n;
    }
  }

  /** Leading zeros do not change the value read. */
  lemma {:induction false} LeadingZero(v: string)
    requires forall i :: 0 <= i < |v| ==> IsDigit(v[i])
    ensures DecimalValue("0" + v) == DecimalValue(v)
  {
    if |v| > 0 {
      var w := "0" + v;
      assert w[..|w| - 1] == "0" + v[..|v| - 1];
      LeadingZero(v[..|v| - 1]);
    }
  }

  lemma {:induction false} SumFieldsAppend(a: seq<string>, b: seq<string>)
    ensures SumFields(a + b) == SumFields(a) + SumFields(b)
  {
    if a == [] {
      assert a + b == b;
    } else {
      assert (a + b)[1..] == a[1..] + b;
      SumFieldsAppend(a[1..], b);
    }
  }

  lemma {:induction false} SumFieldsUpdate(fields: seq<string>, i: nat, v: string)
    requires i < |fields|
    ensures SumFields(fields[i := v]) + FieldValue(fields[i]) == SumFields(fields) + FieldValue(v)
  {
    if i > 0 {
      assert fields[i := v][1..] == fields[1..][i - 1 := v];
      SumFieldsUpdate(fields[1..], i - 1, v);
    } else {
      assert fields[i := v][1..] == fields[1..];
    }
  }

  /**
   * Editing one cell: the name cell never matters, and any other cell
   * swaps its old contribution for the new one (zero for non-digit text).
   */
  lemma TotalScoreEdit(s: Row, i: nat, v: string)
    requires i < |s|
    ensures i == 0 ==> TotalScore(s[i := v]) == TotalScore(s)
    ensures i > 0 ==> TotalScore(s[i := v]) + FieldValue(s[i]) == TotalScore(s) + FieldValue(v)
    ensures i > 0 && !IsDigitString(v) ==> TotalScore(s[i := v]) + FieldValue(s[i]) == TotalScore(s)
  {
    assert s[i := v][1..] == if i == 0 then s[1..] else s[1..][i - 1 := v];
    if i > 0 {
      SumFieldsUpdate(s[1..], i - 1, v);
    }
  }

  /** A record's total is the total of its fields after the name, split anywhere. */
  lemma TotalScoreSplit(name: string, a: seq<string>, b: seq<string>)
    ensures TotalScore([name] + a + b) == SumFields(a) + SumFields(b)
  {
    assert ([name] + a + b)[1..] == a + b;
    SumFieldsAppend(a, b);
  }

  /** A row read back from the nine-column table: the "Final Score" cell counts when it holds digits. */
  lemma NineColumnTotal(s: Row)
    requires |s| == 9
    ensures TotalScore(s) == SumFields(s[1..8]) + FieldValue(s[8])
  {
    assert s[1..] == s[1..8] + [s[8]];
    SumFieldsAppend(s[1..8], [s[8]]);
  }

  /** The worked example: "10", "5", "0" and "7" count; "abc", "" and "-3" do not. */
  lemma TotalScoreExample()
    ensures TotalScore(["X", "10", "abc", "5", "", "0", "-3", "7"]) == 22
  {
  }
}
